=== FILE: README.md ===
# EventFinder dashboards — a Dafny model of the client-side list and form logic

This project models the client-side logic of the EventFinder UI. It covers four React components:

- **Admin dashboard** (`AdminDashboard.jsx`). It shows the event table, and the status tiles, search box and sortable column headers that shape it. It also has the edit popup, whose validation decides whether an update request is sent.
- **Submission form** (`SubmitEvent.jsx`). It covers field-by-field input state, validation including the mandatory image, and the multipart payload. The payload's approval status is always `Pending`.
- **Public event browser** (`EventDetails.jsx`). Fetched events are all stamped `pending`. It has a filter panel (inclusive date range, location, inclusive price range); `applyFilters` also tests a category, but no input ever sets it, so in the program that stage is always inactive. It has a free-text search over name, location and category, "clear filters", and the `data:` URLs built for images.
- **Submissions page** (`SubDashboard.jsx`). It has a name-or-category search, and the list resets whenever the submissions change.

Every piece is a pure function over immutable records. Component state is a datatype per component, and each handler or effect is a function from old state to new state.

Shared modules:

- `Events`: the event record, its fields, and single-field edits.
- `Text`: JavaScript `trim`, blank test, lower-casing, and `includes`.
- `Seqs`: an order-preserving `filter`, with subsequence and exact-multiplicity guarantees.
- `Sorting`: the column comparator and a sort proved to give an ordered permutation.
- `Rules`: the metro zip rule and the positive-price rule.

Representation choices:

- In the event record (admin dashboard, event browser and submissions page), dates are day numbers counted from the epoch, times are minutes after midnight, and prices are integer cents. `Option` stands for an empty, missing or non-numeric value. This is how "parses as a number" is modelled.
- The submission form keeps its date and time as the raw strings of their inputs, since it only tests them for blankness. Its price is an `Option<int>` like the record's.
- The metro zip list comes from `utilities/MetroZipCodes`, which is not part of this model. It is a `seq<string>` parameter, searched the way `Array.prototype.includes` searches it.
- The current instant, in milliseconds after the epoch, is a parameter of the past-events view. An event's day begins at the instant `day * 86400000`.
- Network calls, `window.confirm` and navigation are outside the model. A handler that issues a request returns the request it would issue (`Put`, `Create`), or the error map it shows instead.

Behaviour of the program worth knowing before reading the contracts:

- **Sorting twice does not always reverse.** A second click on the same header sorts descending, but it does not always reverse the first order. The comparator returns 0 on ties, and JavaScript's sort is stable, so tied rows keep their relative order in both directions. The reversal is proved only when no two events in view share a value in that column (`AdminDashboard.SecondClickReverses`).
- **Admin date and time are not trimmed.** The edit popup tests only that a date and a time are present (`!editEvent.eventDate`), while its text fields must be non-empty after trimming.
- **Events of the current day are already past.** The past-events view compares the midnight that begins an event's day with the current instant, so once a day has begun its events are listed as past (`AdminDashboard.PastMeansNoLaterThanToday`).
- **Search in the browser ignores the filter panel.** The search effect filters the full list and overwrites the panel's result, and the panel's effect ignores the search term. Each of `SetFilters` and `SetSearchTerm` states which one it ignores.
- **Search on the admin "Past" view empties the table.** `filterPastEvents` stores the label `"Past"` as the status filter. Typing into the search box afterwards keeps only events whose status is literally `"Past"` (`AdminDashboard.SearchAfterPastView`).

## Model

| member | source | states |
|---|---|---|
| Seqs.Filter | EventFinder-UI/src/components/AdminDashboard.jsx:74 | `filter` returns an order-preserving subsequence. Each element that satisfies the predicate appears exactly as often as in the input, and no other element appears. |
| Seqs.SubsequenceTransitive | EventFinder-UI/src/components/EventDetails.jsx:51-77 | Filters applied in a chain still give a subsequence of the original list. |
| Seqs.FilterTwice | EventFinder-UI/src/components/AdminDashboard.jsx:73-83 | Filtering by status and then by query equals a single filter by both conditions. |
| Seqs.FilterAgreeing | EventFinder-UI/src/components/AdminDashboard.jsx:73-83 | Two predicates that agree on every element filter any list alike; a pass whose test equals "listed" on every event is the one-filter view. |
| Seqs.FilterKeepingAll | EventFinder-UI/src/components/SubDashboard.jsx:41-45 | A filter whose predicate holds for every element returns the list unchanged. |
| Text.TrimStart | EventFinder-UI/src/components/SubmitEvent.jsx:54 | Leading `trim`: the result is the suffix starting at the first non-space character, and everything dropped is white space. |
| Text.TrimEnd | EventFinder-UI/src/components/SubmitEvent.jsx:54 | Trailing `trim`: the result is the prefix ending at the last non-space character, and everything dropped is white space. |
| Text.BlankIffAllSpace | EventFinder-UI/src/components/SubmitEvent.jsx:54-59 | A value fails the "required" test (`!s.trim()`) exactly when all its characters are white space. The empty string is included. |
| Text.Trim | EventFinder-UI/src/components/SubmitEvent.jsx:54 | `trim` never lengthens a string, leaves no white space at either end, and returns a string that has none at its ends unchanged. |
| Text.IsBlank | EventFinder-UI/src/components/AdminDashboard.jsx:128 | The "required" test, `!s` or `s.trim() === ''`: nothing is left after trimming (characterised by `BlankIffAllSpace`). |
| Text.Lower | EventFinder-UI/src/components/AdminDashboard.jsx:64 | `toLowerCase` keeps the length and maps every character through the ASCII letter folding `LowerChar`. |
| Text.Contains | EventFinder-UI/src/components/AdminDashboard.jsx:80-81 | `includes`: a found needle is never longer than the haystack, and the empty needle is always found. |
| Text.ContainsIffOccurs | EventFinder-UI/src/components/AdminDashboard.jsx:80-81 | `includes` holds exactly when the needle starts at some position of the haystack. |
| Text.LowerIsIdempotent | EventFinder-UI/src/components/AdminDashboard.jsx:64 | The lower-cased query has no upper-case ASCII letter, and lower-casing it again changes nothing. |
| Events.ApplyEdit | EventFinder-UI/src/components/AdminDashboard.jsx:117-122 | `handleInputChange` on the draft: the named field gets the new value, and every other field, including the id, is unchanged. |
| Events.ApplyEditOfCurrentValue | EventFinder-UI/src/components/AdminDashboard.jsx:121 | Writing back a field's current value leaves the draft identical. |
| Events.SameFieldsSameEvent | EventFinder-UI/src/components/AdminDashboard.jsx:121 | Two event records agreeing on every property are the same record. |
| Sorting.KeyLessIsStrictTotalOrder | EventFinder-UI/src/components/AdminDashboard.jsx:100-104 | The comparator's `<` on column values is irreflexive, transitive and total. This makes the three-way comparator consistent. |
| Sorting.StrLessTotal | EventFinder-UI/src/components/AdminDashboard.jsx:101-102 | Of two different strings, one is lexicographically below the other. |
| Sorting.Before | EventFinder-UI/src/components/AdminDashboard.jsx:100-104 | The comparator's "sorts first": a strictly smaller column value when ascending, a strictly larger one when descending; ties are never before each other. |
| Sorting.Insert | EventFinder-UI/src/components/AdminDashboard.jsx:100-104 | Inserting into an ordered list keeps it ordered and adds exactly the one element. |
| Sorting.Sort | EventFinder-UI/src/components/AdminDashboard.jsx:100-104 | `[...filteredEvents].sort(cmp)` is a permutation of its input. No element comes strictly before one that precedes it in the chosen direction. |
| Sorting.ReverseIsPermutation | EventFinder-UI/src/components/AdminDashboard.jsx:100-104 | Reversing a list neither adds nor loses elements. |
| Sorting.ReverseOfAscendingIsDescending | EventFinder-UI/src/components/AdminDashboard.jsx:101-102 | An ascending list read backwards is in descending order under the negated comparator. |
| Sorting.OrderedArrangementIsUnique | EventFinder-UI/src/components/AdminDashboard.jsx:100-104 | When the column separates all events, there is only one ordered arrangement of them. |
| Rules.IsValidZipCode | EventFinder-UI/src/components/AdminDashboard.jsx:8-10 | `STL_METRO_ZIPS.includes(zip)`: true exactly when some entry of the metro list equals the zip, with no normalisation. |
| Rules.IsPositivePrice | EventFinder-UI/src/components/AdminDashboard.jsx:151 | The price passes exactly when it is present, numeric and above zero; the negation of the failing test `!price`, `isNaN(price)` or `price <= 0`. |
| Rules.ZipError | EventFinder-UI/src/components/AdminDashboard.jsx:146-150 | A blank zip gets the "required" message. A non-blank zip outside the metro set gets the distinct "metro area" message. A metro zip gets none. |
| AdminDashboard.ApplyFiltersIsOneFilter | EventFinder-UI/src/components/AdminDashboard.jsx:68-86 | The status pass followed by the query pass equals a single filter of the full list by "listed under the tile and matching the query". |
| AdminDashboard.ApplyFilters | EventFinder-UI/src/components/AdminDashboard.jsx:68-86 | The view is rebuilt from the full list as an order-preserving subsequence of it. It holds exactly the status-matching events that match the lower-cased query in name or description. "All" with an empty query returns the list itself. |
| AdminDashboard.FirstLoadShowsEverything | EventFinder-UI/src/components/AdminDashboard.jsx:14-40 | From the initial state (tile "All", no query), the first fetch shows the fetched list, and so does clicking "All" afterwards. |
| AdminDashboard.CountStatus | EventFinder-UI/src/components/AdminDashboard.jsx:42-44 | A tile count is the length of the list filtered by that status. It is at most the list length, 0 exactly when no event has the status, and the full length exactly when every event has it. |
| AdminDashboard.TallyOf | EventFinder-UI/src/components/AdminDashboard.jsx:42-45 | The "All" tile counts every event; each status tile is the length of the list filtered by its status; the three status tiles together never exceed "All". |
| AdminDashboard.TallyBound | EventFinder-UI/src/components/AdminDashboard.jsx:42-44 | Approved, pending and rejected counts sum to at most the number of events. |
| AdminDashboard.Loaded | EventFinder-UI/src/components/AdminDashboard.jsx:39-40 | After a fetch, the list and the view are both the fetched list. The tile, query and sort stay selected. |
| AdminDashboard.HandleSearch | EventFinder-UI/src/components/AdminDashboard.jsx:63-66 | The stored query is the lower-cased input, and the view is rebuilt from the full list, not from the sorted view, as the subsequence holding every copy of each event listed under the current tile and query and nothing else. |
| AdminDashboard.FilterEvents | EventFinder-UI/src/components/AdminDashboard.jsx:88-90 | A tile click stores the status and rebuilds the view from the full list as the subsequence holding every copy of each event listed under that status and the stored query and nothing else; the full list, the query and the sort selection stay. |
| AdminDashboard.FilterPastEvents | EventFinder-UI/src/components/AdminDashboard.jsx:197-202 | The view is the subsequence of the full list holding every copy of each event whose day began before the current instant and nothing else, whatever the tile or query; the filter label becomes "Past", and the full list, the query and the sort selection stay. |
| AdminDashboard.PastMeansNoLaterThanToday | EventFinder-UI/src/components/AdminDashboard.jsx:199-200 | An event is past exactly when it has a date that is the current day or earlier, except that at the midnight beginning the current day only earlier days count. |
| AdminDashboard.SearchAfterPastView | EventFinder-UI/src/components/AdminDashboard.jsx:197-201 | A search typed while the "Past" view is shown leaves an empty table when no event's status is "Past". |
| AdminDashboard.NextDirection | EventFinder-UI/src/components/AdminDashboard.jsx:94-98 | The direction becomes descending exactly when the clicked column is already sorted ascending. Otherwise it is ascending. |
| AdminDashboard.HandleSort | EventFinder-UI/src/components/AdminDashboard.jsx:92-111 | The clicked column is recorded with the new direction. The view becomes a permutation of the current view, ordered by that column in that direction. |
| AdminDashboard.SecondClickReverses | EventFinder-UI/src/components/AdminDashboard.jsx:92-111 | Clicking the same header twice (ascending, then descending) gives the reverse of the first order, provided column values in view are distinct. |
| AdminDashboard.ValidateEditForm | EventFinder-UI/src/components/AdminDashboard.jsx:124-160 | Each required field has an error exactly when blank or missing, and each error carries that field's own message. The zip error is "required" or "metro area" as appropriate. The price has an error exactly when it is missing, non-numeric or not positive. The id never has one. |
| AdminDashboard.DraftValidIffNoErrors | EventFinder-UI/src/components/AdminDashboard.jsx:158-159 | `validateEditForm` returns true (an empty error map) exactly when every rule of the edit form holds. |
| AdminDashboard.OnlyTheZipIsReported | EventFinder-UI/src/components/AdminDashboard.jsx:146-150 | A draft that is complete except for a non-metro zip gets exactly one message, the "metro area" one. |
| AdminDashboard.SaveChanges | EventFinder-UI/src/components/AdminDashboard.jsx:163-172 | An update is issued exactly when the draft validates, and it carries the draft unchanged to its own id. Otherwise the non-empty error map is shown. |
| AdminDashboard.BlankingANameBlocksSave | EventFinder-UI/src/components/AdminDashboard.jsx:163-167 | After an input change that blanks the name, saving issues no update and reports the name. |
| SubmitEvent.HandleInputChange | EventFinder-UI/src/components/SubmitEvent.jsx:42-45 | The named field gets the new value. Every other field, including the image, is unchanged. |
| SubmitEvent.HandleImageChange | EventFinder-UI/src/components/SubmitEvent.jsx:47-49 | The image becomes the first chosen file, or none for an empty selection. No other field changes. |
| SubmitEvent.ValidateForm | EventFinder-UI/src/components/SubmitEvent.jsx:51-73 | Name, description, category, date, time and venue each get an error exactly when blank after trimming; the zip, price and image rules each fail in their own case; every error carries that field's own message. The approval status never gets an error. |
| SubmitEvent.FormValidIffNoErrors | EventFinder-UI/src/components/SubmitEvent.jsx:70-72 | `validateForm` returns true exactly when every rule holds. |
| SubmitEvent.ValidationIgnoresApprovalStatus | EventFinder-UI/src/components/SubmitEvent.jsx:51-73 | Changing the approval status never changes the error map. |
| SubmitEvent.HandleSubmit | EventFinder-UI/src/components/SubmitEvent.jsx:77-94 | A create request is made exactly when the form validates. It carries status "Pending", every other field verbatim, and the chosen image. |
| SubmitEvent.SubmitIgnoresApprovalStatus | EventFinder-UI/src/components/SubmitEvent.jsx:84-85 | Whatever status the form state holds, submitting produces the same outcome. |
| SubmitEvent.EmptyFormIsRejected | EventFinder-UI/src/components/SubmitEvent.jsx:9-20 | The freshly opened form cannot be submitted, and its missing image is reported. |
| EventDetails.StampPending | EventFinder-UI/src/components/EventDetails.jsx:31-34 | Every fetched event gets the status "pending" (lower case). Length, order and all other properties are kept. |
| EventDetails.Fetched | EventFinder-UI/src/components/EventDetails.jsx:26-36 | After a fetch, the full list holds the fetched events in order, each with every property kept except the status, which is "pending"; the view is the current search applied to the new list. |
| EventDetails.ApplyFilters | EventFinder-UI/src/components/EventDetails.jsx:50-80 | The result is an order-preserving subsequence of the full list. It holds exactly the events passing every active filter: exact category, inclusive date range, case-insensitive location, inclusive price range. |
| EventDetails.Narrow | EventFinder-UI/src/components/EventDetails.jsx:52-76 | One `if (input) filtered = filtered.filter(...)` step: the result is an order-preserving subsequence holding exactly the events that pass that filter, with their multiplicities; an inactive filter keeps every event. |
| EventDetails.NoFiltersKeepEverything | EventFinder-UI/src/components/EventDetails.jsx:53-77 | With every filter input empty, the full list is shown. |
| EventDetails.HalfOpenRangesAreIgnored | EventFinder-UI/src/components/EventDetails.jsx:59-64 | A date range (or price range) with only one bound set filters nothing. |
| EventDetails.FirstFetchShowsEverything | EventFinder-UI/src/components/EventDetails.jsx:7-36 | From the initial state (empty term), the first fetch shows every fetched event, stamped "pending". |
| EventDetails.SetFilters | EventFinder-UI/src/components/EventDetails.jsx:45-47 | A panel change rebuilds the view from the full list, ignoring the search term, as the subsequence holding every copy of each event that passes the new filters and nothing else. |
| EventDetails.SearchResults | EventFinder-UI/src/components/EventDetails.jsx:88-99 | A term that is blank after trimming shows the full list. Otherwise the result holds exactly the events whose lower-cased name, location or category contains the lower-cased term, ignoring the panel. |
| EventDetails.SetSearchTerm | EventFinder-UI/src/components/EventDetails.jsx:83-99 | A new term replaces the view with its search results. Retyping the same term changes nothing. |
| EventDetails.ClearFilters | EventFinder-UI/src/components/EventDetails.jsx:102-112 | All six filter inputs and the search term become empty, and the view becomes the full list. |
| EventDetails.Base64ToImageUrl | EventFinder-UI/src/components/EventDetails.jsx:132-136 | The URL is empty exactly when there is no image payload. |
| EventDetails.DataUrlRoundTrip | EventFinder-UI/src/components/EventDetails.jsx:132-136 | Reading back a URL from a non-empty payload recovers the MIME type and the payload, for a MIME type without `;`. |
| SubDashboard.HandleSearchChange | EventFinder-UI/src/components/SubDashboard.jsx:37-48 | The stored text is the lower-cased input. The view is an order-preserving subsequence of the submissions and holds exactly those whose lower-cased name or category contains the text. |
| SubDashboard.EmptySearchShowsAll | EventFinder-UI/src/components/SubDashboard.jsx:41-45 | An empty search text keeps every submission, because the empty string occurs in every name. |
| SubDashboard.DescriptionIsNotSearched | EventFinder-UI/src/components/SubDashboard.jsx:43-44 | Changing a submission's description never changes whether the search keeps it. |
| SubDashboard.FirstListShowsEverything | EventFinder-UI/src/components/SubDashboard.jsx:10-17 | The page opens with an empty view, and the first list of submissions is shown in full. |
| SubDashboard.SubmissionsChanged | EventFinder-UI/src/components/SubDashboard.jsx:15-17 | A new submissions list is shown in full, even though the search box keeps its text. |

## Left out

- Network calls are not modelled. This covers every axios request: the fetches, PUT, DELETE, POST, the image fetch, approve, and the submissions fetch. It also covers the second "add submission" call after a create. All of this is I/O against a backend that is not part of this model. Handlers return the request they would make instead.
- `deleteEvent`, `toggleEditPopup`, `handleCancel`, `fetchAndUpdateApprovalStatus` and `fetchImage` are left out. They are a confirmation prompt, UI toggles, navigation, and request plumbing, with no list or form logic beyond what is modelled.
- `formatTime` (in all three files) is left out. It depends on `Date` and locale-specific time formatting.
- `Messages.jsx`, `ContactController.java` and `FavoriteEventRepository.java` are left out. They are a list fetch with a fire-and-forget POST, mail-sending plumbing, and a repository interface.
- JavaScript value coercion is left out:
  - `null` becomes 0 in comparisons, so `new Date(null)` is a valid date.
  - `[h, m]` time arrays compare as strings.
  - `isNaN` and `parseFloat` have their own string coercion.
  - Prices are floating point.

  Instead, absent values are `None`: they are in no date or price range and sort first. Prices are integer cents.
- Sorting.Sort: does not state stability. JavaScript's sort keeps tied rows in their original order. The contract only promises an ordered permutation, so `AdminDashboard.SecondClickReverses` needs distinct column values.
- AdminDashboard.HandleSort: the same stability gap as `Sorting.Sort`.
- AdminDashboard.IsPast: an event without a date is never past. In JavaScript `new Date(null)` is the epoch, which is past, and `new Date(undefined)` is an invalid date, which is not; the model does not tell `null` from a missing value.
- Sorting.StrLess: compares strings character by character as code points. JavaScript compares UTF-16 code units, which orders differently when a character above U+FFFF meets one in U+E000 to U+FFFF.
- Text.Trim: its contract states the shape of the result and that a string without white space at its ends is kept whole; that the text between the first and last non-space characters is kept comes from its halves `Text.TrimStart` and `Text.TrimEnd`, and blankness from `Text.BlankIffAllSpace`.
- Text.LowerChar: lower-cases ASCII letters only. JavaScript's `toLowerCase` also folds non-ASCII letters.
- EventDetails.Base64ToImageUrl: its contract states only when the URL is empty. The URL's layout is stated through `EventDetails.DataUrlRoundTrip`, which needs a MIME type without `;`.
- The event record has no `eventImage` or `imageMimeType` field. The fetch and the update request carry them along unchanged, and `EventDetails.Base64ToImageUrl` takes them as parameters.
- Rendering (JSX markup and CSS) is left out.

=== FILE: admin_dashboard.dfy ===
/** The admin dashboard: the event table with its status tiles, search box
    and sortable columns, and the edit popup with its validation. */
module AdminDashboard {
  import opened Wrappers
  import opened Text
  import opened Seqs
  import opened Events
  import opened Sorting
  import opened Rules

  /** The tile that shows every event. */
  const All := "All"

  /** The label `filterPastEvents` stores as the current filter. */
  const Past := "Past"

  /** The status tile lets an event through: every event under "All",
      otherwise exactly the events whose status equals the tile's label. */
  predicate PassesStatus(e: Event, filter: string) {
    filter == All || e.approvalStatus == filter
  }

  /** The lower-cased name or description contains the query. */
  predicate MatchesQuery(e: Event, query: string) {
    Contains(Lower(e.eventName), query) || Contains(Lower(e.description), query)
  }

  /** An event is listed: it passes the status tile and, when a query is
      typed, matches it. */
  predicate Listed(e: Event, filter: string, query: string) {
    PassesStatus(e, filter) && (query == [] || MatchesQuery(e, query))
  }

  /** `applyFilters`: rebuilds the view from the full event list, first by
      status, then by the search query. */
  function ApplyFilters(events: seq<Event>, filter: string, query: string): (r: seq<Event>)
    ensures IsSubsequence(r, events)
    ensures forall e :: multiset(r)[e] == if Listed(e, filter, query) then multiset(events)[e] else 0
    ensures forall e :: e in r <==> e in events && Listed(e, filter, query)
    ensures filter != All ==> forall e :: e in r ==> e.approvalStatus == filter
    ensures query != [] ==> forall e :: e in r ==> MatchesQuery(e, query)
    ensures filter == All && query == [] ==> r == events
  {
    SubsequenceReflexive(events);
    var byStatus := if filter != All then Filter(events, (e: Event) => e.approvalStatus == filter) else events;
    SubsequenceReflexive(byStatus);
    var bySearch := if query != [] then Filter(byStatus, (e: Event) => MatchesQuery(e, query)) else byStatus;
    SubsequenceTransitive(bySearch, byStatus, events);
    bySearch
  }

  /** The two passes of `applyFilters` are one filter by `Listed`. */
  lemma ApplyFiltersIsOneFilter(events: seq<Event>, filter: string, query: string)
    ensures ApplyFilters(events, filter, query) == Filter(events, (e: Event) => Listed(e, filter, query))
  {
    var byStatus := (e: Event) => e.approvalStatus == filter;
    var bySearch := (e: Event) => MatchesQuery(e, query);
    var listed := (e: Event) => Listed(e, filter, query);
    if filter != All && query != [] {
      FilterTwice(events, byStatus, bySearch, listed);
    } else if filter != All {
      FilterAgreeing(events, byStatus, listed);
    } else if query != [] {
      FilterAgreeing(events, bySearch, listed);
    } else {
      FilterKeepingAll(events, listed);
    }
  }

  /** The component state that drives the table. */
  datatype AdminState = AdminState(
    events: seq<Event>,
    filteredEvents: seq<Event>,
    filter: string,
    sortColumn: Option<Field>,
    sortDirection: Direction,
    searchQuery: string)

  /** The state before anything is fetched. */
  const Initial := AdminState([], [], All, None, Asc, [])

  /** The first fetch shows every event: the "All" tile with no query
      keeps the whole list. */
  lemma FirstLoadShowsEverything(fetched: seq<Event>)
    ensures Loaded(Initial, fetched).filteredEvents == fetched
    ensures FilterEvents(Loaded(Initial, fetched), All).filteredEvents == fetched
  {
  }

  /** How many events carry each approval status. */
  datatype Tally = Tally(all: nat, approved: nat, pending: nat, rejected: nat)

  /** `events.filter(e => e.approvalStatus === status).length` */
  function CountStatus(events: seq<Event>, status: string): (n: nat)
    ensures n == |Filter(events, (e: Event) => e.approvalStatus == status)|
    ensures n <= |events|
    ensures n == 0 <==> forall e :: e in events ==> e.approvalStatus != status
    ensures n == |events| <==> forall e :: e in events ==> e.approvalStatus == status
    decreases |events|
  {
    if |events| == 0 then 0
    else
      assert forall e :: e in events ==> e == events[0] || e in events[1..];
      (if events[0].approvalStatus == status then 1 else 0) + CountStatus(events[1..], status)
  }

  /** The tiles never count one event twice: the three statuses together
      account for at most every event. */
  lemma {:induction false} TallyBound(events: seq<Event>)
    ensures CountStatus(events, "Approved") + CountStatus(events, "Pending")
            + CountStatus(events, "Rejected") <= |events|
    decreases |events|
  {
    if |events| > 0 {
      TallyBound(events[1..]);
    }
  }

  /** The tile counts `fetchData` computes from a fresh event list. */
  function TallyOf(events: seq<Event>): (t: Tally)
    ensures t.all == |events|
    ensures t.approved == |Filter(events, (e: Event) => e.approvalStatus == "Approved")|
    ensures t.pending == |Filter(events, (e: Event) => e.approvalStatus == "Pending")|
    ensures t.rejected == |Filter(events, (e: Event) => e.approvalStatus == "Rejected")|
    ensures t.approved + t.pending + t.rejected <= t.all
  {
    TallyBound(events);
    Tally(|events|, CountStatus(events, "Approved"), CountStatus(events, "Pending"),
          CountStatus(events, "Rejected"))
  }

  /** A successful `fetchData`: the new list replaces both the full list and
      the view, whatever tile, query or sort is still selected. */
  function Loaded(st: AdminState, fetched: seq<Event>): (r: AdminState)
    ensures r.events == fetched && r.filteredEvents == fetched
    ensures r.filter == st.filter && r.searchQuery == st.searchQuery
    ensures r.sortColumn == st.sortColumn && r.sortDirection == st.sortDirection
  {
    st.(events := fetched, filteredEvents := fetched)
  }

  /** `handleSearch`: stores the typed text lower-cased and rebuilds the
      view from the full list under the current tile. */
  function HandleSearch(st: AdminState, input: string): (r: AdminState)
    ensures r.searchQuery == Lower(input)
    ensures r.events == st.events && r.filter == st.filter
    ensures r.sortColumn == st.sortColumn && r.sortDirection == st.sortDirection
    ensures IsSubsequence(r.filteredEvents, st.events)
    ensures forall e :: multiset(r.filteredEvents)[e] ==
              if Listed(e, st.filter, Lower(input)) then multiset(st.events)[e] else 0
    ensures forall e :: e in r.filteredEvents <==> e in st.events && Listed(e, st.filter, Lower(input))
  {
    var query := Lower(input);
    st.(searchQuery := query, filteredEvents := ApplyFilters(st.events, st.filter, query))
  }

  /** `filterEvents`: a tile click selects the status and rebuilds the view
      from the full list under the current query. */
  function FilterEvents(st: AdminState, status: string): (r: AdminState)
    ensures r.filter == status
    ensures r.sortColumn == st.sortColumn && r.sortDirection == st.sortDirection
    ensures r.events == st.events && r.searchQuery == st.searchQuery
    ensures IsSubsequence(r.filteredEvents, st.events)
    ensures forall e :: multiset(r.filteredEvents)[e] ==
              if Listed(e, status, st.searchQuery) then multiset(st.events)[e] else 0
    ensures forall e :: e in r.filteredEvents <==> e in st.events && Listed(e, status, st.searchQuery)
    ensures status == All && st.searchQuery == [] ==> r.filteredEvents == st.events
  {
    st.(filter := status, filteredEvents := ApplyFilters(st.events, status, st.searchQuery))
  }

  /** Milliseconds in a day: event day `d` begins at the instant
      `d * MillisPerDay` after the epoch. */
  const MillisPerDay := 86_400_000

  /** `new Date(event.eventDate) < new Date()`: the midnight that begins
      the event's day lies before the current instant `now`, counted in
      milliseconds after the epoch. An event without a date never does. */
  predicate IsPast(e: Event, now: int) {
    e.eventDate.Some? && e.eventDate.value * MillisPerDay < now
  }

  /** Which days count as past: once the current day has begun, that
      day and every earlier one; at the exact midnight that begins it,
      only the earlier ones. An event without a date never counts. */
  lemma PastMeansNoLaterThanToday(e: Event, now: int)
    ensures e.eventDate.None? ==> !IsPast(e, now)
    ensures e.eventDate.Some? && now % MillisPerDay != 0 ==>
              (IsPast(e, now) <==> e.eventDate.value <= now / MillisPerDay)
    ensures e.eventDate.Some? && now % MillisPerDay == 0 ==>
              (IsPast(e, now) <==> e.eventDate.value < now / MillisPerDay)
  {
    if e.eventDate.Some? {
      var d, today := e.eventDate.value, now / MillisPerDay;
      assert now == today * MillisPerDay + now % MillisPerDay;
      if d <= today {
        assert d * MillisPerDay <= today * MillisPerDay;
      } else {
        assert d * MillisPerDay >= today * MillisPerDay + MillisPerDay;
      }
    }
  }

  /** `filterPastEvents`, with the current instant as a parameter: every
      past event of the full list, whatever the tile or query, under the
      label "Past". */
  function FilterPastEvents(st: AdminState, now: int): (r: AdminState)
    ensures r.filter == Past
    ensures r.sortColumn == st.sortColumn && r.sortDirection == st.sortDirection
    ensures r.events == st.events && r.searchQuery == st.searchQuery
    ensures IsSubsequence(r.filteredEvents, st.events)
    ensures forall e :: multiset(r.filteredEvents)[e] == if IsPast(e, now) then multiset(st.events)[e] else 0
    ensures forall e :: e in r.filteredEvents <==> e in st.events && IsPast(e, now)
  {
    st.(filter := Past, filteredEvents := Filter(st.events, (e: Event) => IsPast(e, now)))
  }

  /** Typing into the search box while the "Past" view is shown filters by
      the status "Past", which no real approval status equals, so the
      table empties. */
  lemma SearchAfterPastView(st: AdminState, now: int, input: string)
    requires forall e :: e in st.events ==> e.approvalStatus != Past
    ensures HandleSearch(FilterPastEvents(st, now), input).filteredEvents == []
  {
  }

  /** The direction a header click selects: descending only when the
      clicked column is already sorted ascending. */
  function NextDirection(sortColumn: Option<Field>, sortDirection: Direction, column: Field): (d: Direction)
    ensures d == Desc <==> sortColumn == Some(column) && sortDirection == Asc
  {
    if sortColumn == Some(column) && sortDirection == Asc then Desc else Asc
  }

  /** `handleSort`: sorts the current view (not the full list) by the
      clicked column and records the column and direction. */
  function HandleSort(st: AdminState, column: Field): (r: AdminState)
    ensures r.sortColumn == Some(column)
    ensures r.sortDirection == Desc <==> st.sortColumn == Some(column) && st.sortDirection == Asc
    ensures multiset(r.filteredEvents) == multiset(st.filteredEvents)
    ensures Ordered(r.filteredEvents, column, r.sortDirection)
    ensures r.events == st.events && r.filter == st.filter && r.searchQuery == st.searchQuery
  {
    var dir := NextDirection(st.sortColumn, st.sortDirection, column);
    st.(filteredEvents := Sort(st.filteredEvents, column, dir), sortColumn := Some(column),
        sortDirection := dir)
  }

  /** Clicking the same header twice, starting from any state in which the
      first click sorts ascending, reverses the ascending order, provided
      no two events in view share a value in that column (ties keep their
      order in both directions). */
  lemma SecondClickReverses(st: AdminState, column: Field)
    requires st.sortColumn != Some(column) || st.sortDirection == Desc
    requires DistinctKeys(st.filteredEvents, column)
    ensures HandleSort(st, column).sortDirection == Asc
    ensures HandleSort(HandleSort(st, column), column).sortDirection == Desc
    ensures HandleSort(HandleSort(st, column), column).filteredEvents
            == Reverse(HandleSort(st, column).filteredEvents)
  {
    var first := HandleSort(st, column);
    var second := HandleSort(first, column);
    var once, twice := first.filteredEvents, second.filteredEvents;
    assert multiset(twice) == multiset(st.filteredEvents);
    DistinctKeysOfPermutation(twice, st.filteredEvents, column);
    ReverseIsPermutation(once);
    ReverseOfAscendingIsDescending(once, column);
    OrderedArrangementIsUnique(twice, Reverse(once), column, Desc);
  }

  // The edit popup.

  const NameRequired := "Event name is required."
  const DescriptionRequired := "Description is required."
  const CategoryRequired := "Event category is required."
  const DateRequired := "Event date is required."
  const TimeRequired := "Event time is required."
  const VenueRequired := "Event venue name is required."
  const StatusRequired := "Approval status is required."

  /** The draft may be saved: every rule of the edit form holds. */
  predicate DraftIsValid(d: Event, metroZips: seq<string>) {
    && !IsBlank(d.eventName) && !IsBlank(d.description) && !IsBlank(d.eventCategory)
    && d.eventDate.Some? && d.eventTime.Some? && !IsBlank(d.eventLocation)
    && ZipError(d.eventCityzip, metroZips) == None
    && IsPositivePrice(d.eventPrice) && !IsBlank(d.approvalStatus)
  }

  /** `validateEditForm`: one message per failing field, checked in the
      order the popup lists them. */
  function ValidateEditForm(d: Event, metroZips: seq<string>): (errors: map<Field, string>)
    ensures EventName in errors <==> IsBlank(d.eventName)
    ensures Description in errors <==> IsBlank(d.description)
    ensures EventCategory in errors <==> IsBlank(d.eventCategory)
    ensures EventDate in errors <==> d.eventDate.None?
    ensures EventTime in errors <==> d.eventTime.None?
    ensures EventLocation in errors <==> IsBlank(d.eventLocation)
    ensures EventCityzip in errors <==> IsBlank(d.eventCityzip) || d.eventCityzip !in metroZips
    ensures EventCityzip in errors ==>
              errors[EventCityzip] == if IsBlank(d.eventCityzip) then ZipRequired else ZipOutsideMetro
    ensures EventPrice in errors <==> !IsPositivePrice(d.eventPrice)
    ensures EventPrice in errors ==> errors[EventPrice] == PriceNotPositive
    ensures ApprovalStatus in errors <==> IsBlank(d.approvalStatus)
    ensures Id !in errors
    ensures EventName in errors ==> errors[EventName] == NameRequired
    ensures Description in errors ==> errors[Description] == DescriptionRequired
    ensures EventCategory in errors ==> errors[EventCategory] == CategoryRequired
    ensures EventDate in errors ==> errors[EventDate] == DateRequired
    ensures EventTime in errors ==> errors[EventTime] == TimeRequired
    ensures EventLocation in errors ==> errors[EventLocation] == VenueRequired
    ensures ApprovalStatus in errors ==> errors[ApprovalStatus] == StatusRequired
  {
    ErrorMap(d, metroZips)
  }

  function ErrorMap(d: Event, metroZips: seq<string>): map<Field, string> {
    map f | f in EditableFields && FieldError(d, f, metroZips).Some? :: FieldError(d, f, metroZips).value
  }

  /** The fields the popup checks, in the order it checks them. */
  const EditableFields: set<Field> := {
    EventName, Description, EventCategory, EventDate, EventTime,
    EventLocation, EventCityzip, EventPrice, ApprovalStatus }

  /** The message, if any, one field of the draft earns. */
  function FieldError(d: Event, f: Field, metroZips: seq<string>): Option<string> {
    match f
    case Id => None
    case EventName => if IsBlank(d.eventName) then Some(NameRequired) else None
    case Description => if IsBlank(d.description) then Some(DescriptionRequired) else None
    case EventCategory => if IsBlank(d.eventCategory) then Some(CategoryRequired) else None
    case EventDate => if d.eventDate.None? then Some(DateRequired) else None
    case EventTime => if d.eventTime.None? then Some(TimeRequired) else None
    case EventLocation => if IsBlank(d.eventLocation) then Some(VenueRequired) else None
    case EventCityzip => ZipError(d.eventCityzip, metroZips)
    case EventPrice => if !IsPositivePrice(d.eventPrice) then Some(PriceNotPositive) else None
    case ApprovalStatus => if IsBlank(d.approvalStatus) then Some(StatusRequired) else None
  }

  /** `validateEditForm` returns true, that is, leaves no message, exactly
      when every rule of the edit form holds. */
  lemma DraftValidIffNoErrors(d: Event, metroZips: seq<string>)
    ensures ValidateEditForm(d, metroZips) == map[] <==> DraftIsValid(d, metroZips)
  {
    var errors := ValidateEditForm(d, metroZips);
    if DraftIsValid(d, metroZips) {
      forall f | f in errors
        ensures false
      {
        match f
        case Id =>
        case _ =>
      }
    } else {
      assert exists f :: f in errors;
    }
  }

  /** A draft that is complete except for a non-metro zip code gets
      exactly one message, on the zip field. */
  lemma OnlyTheZipIsReported(d: Event, metroZips: seq<string>)
    requires !IsBlank(d.eventName) && !IsBlank(d.description) && !IsBlank(d.eventCategory)
    requires d.eventDate.Some? && d.eventTime.Some? && !IsBlank(d.eventLocation)
    requires IsPositivePrice(d.eventPrice) && !IsBlank(d.approvalStatus)
    requires !IsBlank(d.eventCityzip) && d.eventCityzip !in metroZips
    ensures ValidateEditForm(d, metroZips) == map[EventCityzip := ZipOutsideMetro]
  {
    var errors := ValidateEditForm(d, metroZips);
    forall f | f in errors
      ensures f == EventCityzip
    {
      match f
      case Id =>
      case EventName =>
      case Description =>
      case EventCategory =>
      case EventDate =>
      case EventTime =>
      case EventLocation =>
      case EventCityzip =>
      case EventPrice =>
      case ApprovalStatus =>
    }
    SingletonMap(errors, EventCityzip, ZipOutsideMetro);
  }

  /** A map with a single key is the one-entry map. */
  lemma SingletonMap<K, V>(m: map<K, V>, k: K, v: V)
    requires k in m && m[k] == v
    requires forall j :: j in m ==> j == k
    ensures m == map[k := v]
  {
  }

  /** What `saveChanges` does with a draft. */
  datatype SaveOutcome =
    | NotSaved(errors: map<Field, string>)   // errors shown, nothing sent
    | Put(id: int, body: Event)              // PUT /api/admin/events/{id}

  /** `saveChanges`: the update request is issued only for a draft that
      validates, and carries the draft unchanged. */
  function SaveChanges(d: Event, metroZips: seq<string>): (r: SaveOutcome)
    ensures r.Put? <==> DraftIsValid(d, metroZips)
    ensures r.Put? ==> r.id == d.id && r.body == d
    ensures r.NotSaved? ==> r.errors != map[] && r.errors == ValidateEditForm(d, metroZips)
  {
    var errors := ValidateEditForm(d, metroZips);
    DraftValidIffNoErrors(d, metroZips);
    if errors != map[] then NotSaved(errors) else Put(d.id, d)
  }

  /** `handleInputChange` on the draft, then the save button: an edit that
      blanks a required text field always blocks the save. */
  lemma BlankingANameBlocksSave(d: Event, metroZips: seq<string>, name: string)
    requires IsBlank(name)
    ensures SaveChanges(ApplyEdit(d, SetEventName(name)), metroZips).NotSaved?
    ensures EventName in SaveChanges(ApplyEdit(d, SetEventName(name)), metroZips).errors
  {
  }
}

=== FILE: event_details.dfy ===
/** The public event browser: fetched events stamped "pending", the
    category/date/location/price filter panel, the free-text search, and
    the image data URLs. */
module EventDetails {
  import opened Wrappers
  import opened Text
  import opened Seqs
  import opened Events

  /** `fetchData` stamps every fetched event with this status. */
  const PendingStamp := "pending"

  /** `fetchData`'s mapping: each event keeps its position and every
      property except the status, which becomes "pending". */
  function StampPending(events: seq<Event>): (r: seq<Event>)
    ensures |r| == |events|
    ensures forall i :: 0 <= i < |r| ==> r[i].approvalStatus == PendingStamp
    ensures forall i, f :: 0 <= i < |r| && f != ApprovalStatus ==> Get(r[i], f) == Get(events[i], f)
  {
    seq(|events|, i requires 0 <= i < |events| => events[i].(approvalStatus := PendingStamp))
  }

  /** The filter state `applyFilters` reads. Dates are day numbers and
      prices are cents; `None` stands for an input left empty. The panel
      renders inputs for the dates, the location and the prices only: no
      input ever sets `category`, so in the program the category stage is
      always inactive. */
  datatype Filters = Filters(
    category: string,
    startDate: Option<int>,
    endDate: Option<int>,
    location: string,
    minPrice: Option<int>,
    maxPrice: Option<int>)

  /** The panel with every input empty, as `clearFilters` leaves it. */
  const NoFilters := Filters("", None, None, "", None, None)

  /** `lo <= x <= hi` on both ends; an absent value is in no range. */
  predicate InRange(x: Option<int>, lo: int, hi: int) {
    x.Some? && lo <= x.value <= hi
  }

  /** The four filters of the panel, in the order `applyFilters` runs
      them. */
  datatype Stage = ByCategory | ByDate | ByLocation | ByPrice

  /** A filter is active when its input is set; a range needs both of its
      bounds. */
  predicate Active(stage: Stage, f: Filters) {
    match stage
    case ByCategory => f.category != []
    case ByDate => f.startDate.Some? && f.endDate.Some?
    case ByLocation => f.location != []
    case ByPrice => f.minPrice.Some? && f.maxPrice.Some?
  }

  /** The event passes one filter: the category must match exactly, the
      location is a case-insensitive substring, the date and the price lie
      in their ranges; an inactive filter passes everything. */
  predicate PassesStage(stage: Stage, e: Event, f: Filters) {
    Active(stage, f) ==>
      match stage
      case ByCategory => e.eventCategory == f.category
      case ByDate => InRange(e.eventDate, f.startDate.value, f.endDate.value)
      case ByLocation => Contains(Lower(e.eventLocation), Lower(f.location))
      case ByPrice => InRange(e.eventPrice, f.minPrice.value, f.maxPrice.value)
  }

  /** The event passes every filter that is active. */
  predicate PassesFilters(e: Event, f: Filters) {
    && PassesStage(ByCategory, e, f) && PassesStage(ByDate, e, f)
    && PassesStage(ByLocation, e, f) && PassesStage(ByPrice, e, f)
  }

  /** One stage of `applyFilters`: an active filter keeps the events it
      accepts, an inactive one leaves the list as it is. */
  function Narrow(s: seq<Event>, stage: Stage, f: Filters): (r: seq<Event>)
    ensures IsSubsequence(r, s)
    ensures forall e :: multiset(r)[e] == if PassesStage(stage, e, f) then multiset(s)[e] else 0
    ensures forall e :: e in r <==> e in s && PassesStage(stage, e, f)
  {
    if Active(stage, f) then Filter(s, (e: Event) => PassesStage(stage, e, f))
    else SubsequenceReflexive(s); s
  }

  /** `applyFilters`: the active filters applied one after another to the
      full list. */
  function ApplyFilters(data: seq<Event>, f: Filters): (r: seq<Event>)
    ensures IsSubsequence(r, data)
    ensures forall e :: multiset(r)[e] == if PassesFilters(e, f) then multiset(data)[e] else 0
    ensures forall e :: e in r <==> e in data && PassesFilters(e, f)
  {
    var r1 := Narrow(data, ByCategory, f);
    var r2 := Narrow(r1, ByDate, f);
    var r3 := Narrow(r2, ByLocation, f);
    var r4 := Narrow(r3, ByPrice, f);
    SubsequenceTransitive(r2, r1, data);
    SubsequenceTransitive(r3, r2, data);
    SubsequenceTransitive(r4, r3, data);
    r4
  }

  /** With an empty panel nothing is filtered out. */
  lemma NoFiltersKeepEverything(data: seq<Event>)
    ensures ApplyFilters(data, NoFilters) == data
  {
  }

  /** A date range with only one bound set filters nothing; likewise a
      price range. */
  lemma HalfOpenRangesAreIgnored(data: seq<Event>, f: Filters)
    requires f.startDate.None? || f.endDate.None?
    requires f.minPrice.None? || f.maxPrice.None?
    ensures forall e :: e in ApplyFilters(data, f) <==>
              e in data
              && (f.category != [] ==> e.eventCategory == f.category)
              && (f.location != [] ==> Contains(Lower(e.eventLocation), Lower(f.location)))
  {
  }

  /** The lower-cased name, location or category contains the term. */
  predicate SearchHit(e: Event, term: string) {
    || Contains(Lower(e.eventName), term)
    || Contains(Lower(e.eventLocation), term)
    || Contains(Lower(e.eventCategory), term)
  }

  /** The search effect: a term that is blank after trimming shows the full
      list; any other term keeps the events of the full list that it hits,
      lower-cased but untrimmed, regardless of the filter panel. */
  function SearchResults(data: seq<Event>, term: string): (r: seq<Event>)
    ensures IsBlank(term) ==> r == data
    ensures IsSubsequence(r, data)
    ensures !IsBlank(term) ==>
              forall e :: multiset(r)[e] == if SearchHit(e, Lower(term)) then multiset(data)[e] else 0
    ensures !IsBlank(term) ==> forall e :: e in r <==> e in data && SearchHit(e, Lower(term))
  {
    SubsequenceReflexive(data);
    if IsBlank(term) then data
    else Filter(data, (e: Event) => SearchHit(e, Lower(term)))
  }

  /** The component state. */
  datatype BrowserState = BrowserState(
    data: seq<Event>,
    filteredData: seq<Event>,
    searchTerm: string,
    filters: Filters)

  const Initial := BrowserState([], [], "", NoFilters)

  /** A successful fetch: the stamped list becomes the full list, and the
      search effect, which watches the full list, recomputes the view from
      it under the current term. */
  function Fetched(st: BrowserState, fetched: seq<Event>): (r: BrowserState)
    ensures |r.data| == |fetched|
    ensures forall i :: 0 <= i < |fetched| ==> r.data[i] == fetched[i].(approvalStatus := PendingStamp)
    ensures forall e :: e in r.data ==> e.approvalStatus == PendingStamp
    ensures r.filteredData == SearchResults(r.data, st.searchTerm)
    ensures r.searchTerm == st.searchTerm && r.filters == st.filters
  {
    var data := StampPending(fetched);
    st.(data := data, filteredData := SearchResults(data, st.searchTerm))
  }

  /** Opening the browser: the first fetch, with no term typed, shows every
      stamped event. */
  lemma FirstFetchShowsEverything(fetched: seq<Event>)
    ensures Fetched(Initial, fetched).filteredData == StampPending(fetched)
  {
    EmptyIsBlank();
  }

  /** A change of the filter panel: the filter effect recomputes the view
      from the full list, ignoring the search term. */
  function SetFilters(st: BrowserState, f: Filters): (r: BrowserState)
    ensures r.filters == f && r.data == st.data && r.searchTerm == st.searchTerm
    ensures IsSubsequence(r.filteredData, st.data)
    ensures forall e :: multiset(r.filteredData)[e] == if PassesFilters(e, f) then multiset(st.data)[e] else 0
    ensures forall e :: e in r.filteredData <==> e in st.data && PassesFilters(e, f)
  {
    st.(filters := f, filteredData := ApplyFilters(st.data, f))
  }

  /** `handleSearch`: a new term reruns the search effect over the full
      list, ignoring the filter panel; retyping the same term changes
      nothing. */
  function SetSearchTerm(st: BrowserState, term: string): (r: BrowserState)
    ensures r.searchTerm == term && r.data == st.data && r.filters == st.filters
    ensures term != st.searchTerm ==> r.filteredData == SearchResults(st.data, term)
    ensures term == st.searchTerm ==> r == st
  {
    if term == st.searchTerm then st
    else st.(searchTerm := term, filteredData := SearchResults(st.data, term))
  }

  /** `clearFilters`: every filter input and the search term are emptied,
      and the effects then show the full list. */
  function ClearFilters(st: BrowserState): (r: BrowserState)
    ensures r.filters == NoFilters && r.searchTerm == ""
    ensures r.data == st.data
    ensures r.filteredData == st.data
  {
    var afterFilters := st.(filters := NoFilters, filteredData := ApplyFilters(st.data, NoFilters));
    NoFiltersKeepEverything(st.data);
    EmptiedSearchShowsAll(afterFilters);
    SetSearchTerm(afterFilters, "")
  }

  /** Emptying the search box over a view that already shows the full list
      keeps showing it. */
  lemma EmptiedSearchShowsAll(st: BrowserState)
    requires st.filteredData == st.data
    ensures SetSearchTerm(st, "").filteredData == st.data
  {
    EmptyIsBlank();
  }

  const DataPrefix := "data:"
  const Base64Marker := ";base64,"

  /** `base64ToImageUrl`: no image gives the empty string, any other
      payload a `data:` URL naming its MIME type. */
  function Base64ToImageUrl(base64: string, mimeType: string): (url: string)
    ensures base64 == [] <==> url == []
  {
    if base64 == [] then []
    else DataPrefix + mimeType + Base64Marker + base64
  }

  /** The position of the first `c` in `s`, or `|s|` if there is none. */
  function IndexOf(s: string, c: char): (k: nat)
    ensures k <= |s|
    ensures forall i :: 0 <= i < k ==> s[i] != c
    ensures k < |s| ==> s[k] == c
    decreases |s|
  {
    if |s| == 0 || s[0] == c then 0 else 1 + IndexOf(s[1..], c)
  }

  /** Reads a `data:<mime>;base64,<payload>` URL back into its MIME type and
      payload. */
  function ParseDataUrl(url: string): Option<(string, string)> {
    if !(DataPrefix <= url) then None
    else
      var rest := url[|DataPrefix|..];
      var k := IndexOf(rest, ';');
      if Base64Marker <= rest[k..] then Some((rest[..k], rest[k + |Base64Marker|..]))
      else None
  }

  /** A MIME type without `;` and a non-empty payload survive the trip
      through a data URL. */
  lemma DataUrlRoundTrip(base64: string, mimeType: string)
    requires base64 != []
    requires forall i :: 0 <= i < |mimeType| ==> mimeType[i] != ';'
    ensures ParseDataUrl(Base64ToImageUrl(base64, mimeType)) == Some((mimeType, base64))
  {
    var url := Base64ToImageUrl(base64, mimeType);
    assert url == DataPrefix + (mimeType + Base64Marker + base64);
    var rest := url[|DataPrefix|..];
    assert rest == mimeType + Base64Marker + base64;
    assert rest[|mimeType|] == ';';
    var k := IndexOf(rest, ';');
    assert k == |mimeType|;
    assert rest[k..] == Base64Marker + base64;
    assert DataPrefix <= url;
    assert rest[..k] == mimeType;
    assert rest[k + |Base64Marker|..] == base64;
  }
}

=== FILE: events.dfy ===
/** The event record every dashboard shows, edits and submits, and
    single-field updates of it (`{ ...event, [name]: value }`). */
module Events {
  import opened Wrappers

  /** One event as the backend serves it. Dates are day numbers, times are
      minutes after midnight and prices are in cents; `None` stands for a
      value that is missing, empty or not a number. */
  datatype Event = Event(
    id: int,
    eventName: string,
    description: string,
    eventCategory: string,
    eventDate: Option<int>,
    eventTime: Option<int>,
    eventLocation: string,
    eventCityzip: string,
    eventPrice: Option<int>,
    approvalStatus: string)

  /** The property names of an event record. */
  datatype Field =
    | Id | EventName | Description | EventCategory | EventDate
    | EventTime | EventLocation | EventCityzip | EventPrice | ApprovalStatus

  /** What a property holds: text, or a number that may be absent. */
  datatype Value = TextValue(text: string) | NumberValue(number: Option<int>)

  /** `event[field]` */
  function Get(e: Event, f: Field): Value {
    match f
    case Id => NumberValue(Some(e.id))
    case EventName => TextValue(e.eventName)
    case Description => TextValue(e.description)
    case EventCategory => TextValue(e.eventCategory)
    case EventDate => NumberValue(e.eventDate)
    case EventTime => NumberValue(e.eventTime)
    case EventLocation => TextValue(e.eventLocation)
    case EventCityzip => TextValue(e.eventCityzip)
    case EventPrice => NumberValue(e.eventPrice)
    case ApprovalStatus => TextValue(e.approvalStatus)
  }

  /** Two events are the same record exactly when every property agrees. */
  lemma SameFieldsSameEvent(a: Event, b: Event)
    requires forall f :: Get(a, f) == Get(b, f)
    ensures a == b
  {
    assert Get(a, Id) == Get(b, Id);
    assert Get(a, EventName) == Get(b, EventName);
    assert Get(a, Description) == Get(b, Description);
    assert Get(a, EventCategory) == Get(b, EventCategory);
    assert Get(a, EventDate) == Get(b, EventDate);
    assert Get(a, EventTime) == Get(b, EventTime);
    assert Get(a, EventLocation) == Get(b, EventLocation);
    assert Get(a, EventCityzip) == Get(b, EventCityzip);
    assert Get(a, EventPrice) == Get(b, EventPrice);
    assert Get(a, ApprovalStatus) == Get(b, ApprovalStatus);
  }

  /** One change event of an edit-form input: the input's `name` and its
      new `value`. The id has no input and cannot be edited. */
  datatype Edit =
    | SetEventName(name: string)
    | SetDescription(description: string)
    | SetEventCategory(category: string)
    | SetEventDate(date: Option<int>)
    | SetEventTime(time: Option<int>)
    | SetEventLocation(location: string)
    | SetEventCityzip(zip: string)
    | SetEventPrice(price: Option<int>)
    | SetApprovalStatus(status: string)
  {
    /** The `name` attribute of the input that changed. */
    function Target(): (f: Field)
      ensures f != Id
    {
      match this
      case SetEventName(_) => EventName
      case SetDescription(_) => Description
      case SetEventCategory(_) => EventCategory
      case SetEventDate(_) => EventDate
      case SetEventTime(_) => EventTime
      case SetEventLocation(_) => EventLocation
      case SetEventCityzip(_) => EventCityzip
      case SetEventPrice(_) => EventPrice
      case SetApprovalStatus(_) => ApprovalStatus
    }

    /** The input's new `value`. */
    function NewValue(): Value {
      match this
      case SetEventName(s) => TextValue(s)
      case SetDescription(s) => TextValue(s)
      case SetEventCategory(s) => TextValue(s)
      case SetEventDate(d) => NumberValue(d)
      case SetEventTime(t) => NumberValue(t)
      case SetEventLocation(s) => TextValue(s)
      case SetEventCityzip(s) => TextValue(s)
      case SetEventPrice(p) => NumberValue(p)
      case SetApprovalStatus(s) => TextValue(s)
    }
  }

  /** `{ ...e, [name]: value }`: the named property takes the new value and
      every other property, the id included, keeps its old one. */
  function ApplyEdit(e: Event, ed: Edit): (r: Event)
    ensures Get(r, ed.Target()) == ed.NewValue()
    ensures forall f :: f != ed.Target() ==> Get(r, f) == Get(e, f)
  {
    match ed
    case SetEventName(s) => e.(eventName := s)
    case SetDescription(s) => e.(description := s)
    case SetEventCategory(s) => e.(eventCategory := s)
    case SetEventDate(d) => e.(eventDate := d)
    case SetEventTime(t) => e.(eventTime := t)
    case SetEventLocation(s) => e.(eventLocation := s)
    case SetEventCityzip(s) => e.(eventCityzip := s)
    case SetEventPrice(p) => e.(eventPrice := p)
    case SetApprovalStatus(s) => e.(approvalStatus := s)
  }

  /** Writing back the value a property already holds changes nothing. */
  lemma ApplyEditOfCurrentValue(e: Event, ed: Edit)
    requires Get(e, ed.Target()) == ed.NewValue()
    ensures ApplyEdit(e, ed) == e
  {
    SameFieldsSameEvent(ApplyEdit(e, ed), e);
  }
}

=== FILE: rules.dfy ===
/** Field rules shared by the admin edit form and the submission form:
    the metro zip-code whitelist and the positive-price rule. */
module Rules {
  import opened Wrappers
  import opened Text

  const ZipRequired := "Event zip code is required."
  const ZipOutsideMetro := "Please enter a valid zip code from the St. Louis metro area."
  const PriceNotPositive := "Event price must be a positive number."

  /** `isValidZipCode`: `includes` on the list of metro zip codes, a
      front-to-back scan for an exactly equal string, with no trimming or
      other normalisation. */
  function IsValidZipCode(zip: string, metroZips: seq<string>): (b: bool)
    ensures b <==> exists i :: 0 <= i < |metroZips| && metroZips[i] == zip
    decreases |metroZips|
  {
    |metroZips| > 0 && (metroZips[0] == zip || IsValidZipCode(zip, metroZips[1..]))
  }

  /** The zip rule: a blank zip is missing, a non-blank one must be a metro
      zip, and each failure has its own message. */
  function ZipError(zip: string, metroZips: seq<string>): (r: Option<string>)
    ensures r == None <==> !IsBlank(zip) && zip in metroZips
    ensures r == Some(ZipRequired) <==> IsBlank(zip)
    ensures r == Some(ZipOutsideMetro) <==> !IsBlank(zip) && zip !in metroZips
  {
    if IsBlank(zip) then Some(ZipRequired)
    else if !IsValidZipCode(zip, metroZips) then Some(ZipOutsideMetro)
    else None
  }

  /** `!price || isNaN(price) || price <= 0` fails exactly for a price that
      is missing, not a number, or not above zero. */
  predicate IsPositivePrice(price: Option<int>) {
    price.Some? && price.value > 0
  }
}

=== FILE: seqs.dfy ===
/** Order-preserving filtering of sequences, the shape shared by every list
    view of the dashboards (`Array.prototype.filter`). */
module Seqs {

  /** `r` can be obtained from `s` by deleting elements, keeping the order
      of the rest. */
  predicate IsSubsequence<T(==)>(r: seq<T>, s: seq<T>)
    decreases |s|
  {
    && |r| <= |s|
    && (|| |r| == 0
        || (r[0] == s[0] && IsSubsequence(r[1..], s[1..]))
        || IsSubsequence(r, s[1..]))
  }

  /** `s.filter(keep)`: the elements of `s` that satisfy `keep`, in their
      original order, each kept as often as it occurs in `s`. */
  function Filter<T(!new)>(s: seq<T>, keep: T -> bool): (r: seq<T>)
    ensures IsSubsequence(r, s)
    ensures forall x :: multiset(r)[x] == if keep(x) then multiset(s)[x] else 0
    ensures forall x :: x in r <==> x in s && keep(x)
    decreases |s|
  {
    if |s| == 0 then []
    else
      var rest := Filter(s[1..], keep);
      assert s == [s[0]] + s[1..];
      if keep(s[0]) then
        assert ([s[0]] + rest)[1..] == rest;
        [s[0]] + rest
      else
        rest
  }

  /** Deleting elements twice is deleting elements once. */
  lemma {:induction false} SubsequenceTransitive<T>(a: seq<T>, b: seq<T>, c: seq<T>)
    requires IsSubsequence(a, b) && IsSubsequence(b, c)
    ensures IsSubsequence(a, c)
    decreases |c|
  {
    if |a| == 0 {
    } else if b[0] == c[0] && IsSubsequence(b[1..], c[1..]) {
      if a[0] == b[0] && IsSubsequence(a[1..], b[1..]) {
        SubsequenceTransitive(a[1..], b[1..], c[1..]);
      } else {
        SubsequenceTransitive(a, b[1..], c[1..]);
      }
    } else {
      SubsequenceTransitive(a, b, c[1..]);
    }
  }

  /** Every sequence is a subsequence of itself. */
  lemma {:induction false} SubsequenceReflexive<T>(s: seq<T>)
    ensures IsSubsequence(s, s)
    decreases |s|
  {
    if |s| > 0 {
      SubsequenceReflexive(s[1..]);
    }
  }

  /** A filter that keeps every element returns its input unchanged. */
  lemma {:induction false} FilterKeepingAll<T(!new)>(s: seq<T>, keep: T -> bool)
    requires forall i :: 0 <= i < |s| ==> keep(s[i])
    ensures Filter(s, keep) == s
    decreases |s|
  {
    if |s| > 0 {
      FilterKeepingAll(s[1..], keep);
      assert keep(s[0]);
      assert Filter(s, keep) == [s[0]] + Filter(s[1..], keep);
      assert [s[0]] + s[1..] == s;
    }
  }

  /** Two predicates that agree on every element filter alike. */
  lemma {:induction false} FilterAgreeing<T(!new)>(s: seq<T>, p: T -> bool, q: T -> bool)
    requires forall x :: p(x) == q(x)
    ensures Filter(s, p) == Filter(s, q)
    decreases |s|
  {
    if |s| > 0 {
      FilterAgreeing(s[1..], p, q);
    }
  }

  /** Filtering with `p` and then with `q` is filtering once with their
      conjunction. */
  lemma {:induction false} FilterTwice<T(!new)>(s: seq<T>, p: T -> bool, q: T -> bool, both: T -> bool)
    requires forall x :: both(x) == (p(x) && q(x))
    ensures Filter(Filter(s, p), q) == Filter(s, both)
    decreases |s|
  {
    if |s| > 0 {
      FilterTwice(s[1..], p, q, both);
      if p(s[0]) {
        assert Filter(s, p) == [s[0]] + Filter(s[1..], p);
        assert Filter(s, p)[1..] == Filter(s[1..], p);
      }
    }
  }
}

=== FILE: sorting.dfy ===
/** Sorting an event list by one column in one direction, as the admin
    table's header clicks do: a three-way comparator over the column's
    values, negated for the descending direction. */
module Sorting {
  import opened Wrappers
  import opened Events

  /** The value a column contributes to the comparison. Absent numbers come
      before every present value, numbers before text. */
  datatype Key = Missing | Num(n: int) | Str(s: string)

  function KeyOf(v: Value): Key {
    match v
    case TextValue(s) => Str(s)
    case NumberValue(None) => Missing
    case NumberValue(Some(n)) => Num(n)
  }

  /** `event[column]` as a sort key. */
  function ColumnKey(e: Event, column: Field): Key {
    KeyOf(Get(e, column))
  }

  /** JavaScript's `<` on strings, as lexicographic order on characters
      (code points), a proper prefix coming first. */
  predicate StrLess(a: string, b: string)
    decreases |a|
  {
    if |a| == 0 then |b| > 0
    else |b| > 0 && (a[0] < b[0] || (a[0] == b[0] && StrLess(a[1..], b[1..])))
  }

  predicate KeyLess(a: Key, b: Key) {
    match (a, b)
    case (Missing, Missing) => false
    case (Missing, _) => true
    case (Num(x), Num(y)) => x < y
    case (Num(_), Str(_)) => true
    case (Str(x), Str(y)) => StrLess(x, y)
    case (_, _) => false
  }

  lemma {:induction false} StrLessIrreflexive(a: string)
    ensures !StrLess(a, a)
    decreases |a|
  {
    if |a| > 0 {
      StrLessIrreflexive(a[1..]);
    }
  }

  lemma {:induction false} StrLessTransitive(a: string, b: string, c: string)
    requires StrLess(a, b) && StrLess(b, c)
    ensures StrLess(a, c)
    decreases |a|
  {
    if |a| > 0 && a[0] == b[0] && b[0] == c[0] {
      StrLessTransitive(a[1..], b[1..], c[1..]);
    }
  }

  /** Two different strings are always ordered one way or the other. */
  lemma {:induction false} StrLessTotal(a: string, b: string)
    requires a != b
    ensures StrLess(a, b) || StrLess(b, a)
    decreases |a|
  {
    if |a| > 0 && |b| > 0 && a[0] == b[0] {
      assert a == [a[0]] + a[1..] && b == [b[0]] + b[1..];
      StrLessTotal(a[1..], b[1..]);
    }
  }

  /** `KeyLess` is a strict total order on keys. */
  lemma KeyLessIsStrictTotalOrder()
    ensures forall a :: !KeyLess(a, a)
    ensures forall a, b, c :: KeyLess(a, b) && KeyLess(b, c) ==> KeyLess(a, c)
    ensures forall a, b :: a != b ==> KeyLess(a, b) || KeyLess(b, a)
  {
    forall a
      ensures !KeyLess(a, a)
    {
      if a.Str? {
        StrLessIrreflexive(a.s);
      }
    }
    forall a, b, c | KeyLess(a, b) && KeyLess(b, c)
      ensures KeyLess(a, c)
    {
      if a.Str? && b.Str? && c.Str? {
        StrLessTransitive(a.s, b.s, c.s);
      }
    }
    forall a, b | a != b
      ensures KeyLess(a, b) || KeyLess(b, a)
    {
      if a.Str? && b.Str? {
        StrLessTotal(a.s, b.s);
      }
    }
  }

  datatype Direction = Asc | Desc

  /** The comparator returns a negative number for `(a, b)`: `a` must come
      before `b` in the chosen direction. */
  predicate Before(a: Event, b: Event, column: Field, dir: Direction) {
    if dir == Asc then KeyLess(ColumnKey(a, column), ColumnKey(b, column))
    else KeyLess(ColumnKey(b, column), ColumnKey(a, column))
  }

  /** No element is strictly before one that precedes it. */
  predicate Ordered(s: seq<Event>, column: Field, dir: Direction) {
    forall i, j :: 0 <= i < j < |s| ==> !Before(s[j], s[i], column, dir)
  }

  lemma BeforeIrreflexive(a: Event, column: Field, dir: Direction)
    ensures !Before(a, a, column, dir)
  {
    KeyLessIsStrictTotalOrder();
  }

  lemma BeforeTransitive(a: Event, b: Event, c: Event, column: Field, dir: Direction)
    requires Before(a, b, column, dir) && Before(b, c, column, dir)
    ensures Before(a, c, column, dir)
  {
    KeyLessIsStrictTotalOrder();
  }

  /** An element that must precede the head of an ordered list can be put
      in front of it. */
  lemma PrependKeepsOrder(s: seq<Event>, x: Event, column: Field, dir: Direction)
    requires |s| > 0 && Ordered(s, column, dir) && Before(x, s[0], column, dir)
    ensures Ordered([x] + s, column, dir)
  {
    var r := [x] + s;
    forall i, j | 0 <= i < j < |r|
      ensures !Before(r[j], r[i], column, dir)
    {
      assert r[j] == s[j - 1];
      if i == 0 && Before(s[j - 1], x, column, dir) {
        BeforeTransitive(s[j - 1], x, s[0], column, dir);
        BeforeIrreflexive(s[0], column, dir);
      }
    }
  }

  /** The head of an ordered list can stay in front of any ordered
      rearrangement of its tail plus an element that need not precede it. */
  lemma HeadStaysInFront(s: seq<Event>, x: Event, rest: seq<Event>, column: Field, dir: Direction)
    requires |s| > 0 && Ordered(s, column, dir) && !Before(x, s[0], column, dir)
    requires Ordered(rest, column, dir) && multiset(rest) == multiset(s[1..]) + multiset{x}
    ensures Ordered([s[0]] + rest, column, dir)
  {
    var r := [s[0]] + rest;
    forall i, j | 0 <= i < j < |r|
      ensures !Before(r[j], r[i], column, dir)
    {
      assert r[j] == rest[j - 1];
      if i == 0 && rest[j - 1] != x {
        assert rest[j - 1] in multiset(rest);
        assert rest[j - 1] in s[1..];
        var k :| 0 <= k < |s[1..]| && s[1..][k] == rest[j - 1];
        assert s[k + 1] == rest[j - 1];
      }
    }
  }

  /** Puts `x` into the ordered `s` after every element it does not have
      to precede. */
  function Insert(s: seq<Event>, x: Event, column: Field, dir: Direction): (r: seq<Event>)
    requires Ordered(s, column, dir)
    ensures multiset(r) == multiset(s) + multiset{x}
    ensures Ordered(r, column, dir)
    decreases |s|
  {
    if |s| == 0 then [x]
    else if Before(x, s[0], column, dir) then
      PrependKeepsOrder(s, x, column, dir);
      [x] + s
    else
      OrderedTail(s, column, dir);
      var rest := Insert(s[1..], x, column, dir);
      HeadStaysInFront(s, x, rest, column, dir);
      assert s == [s[0]] + s[1..];
      [s[0]] + rest
  }

  /** `[...s].sort(comparator)`: a reordering of `s` in which no element is
      strictly before one that precedes it. */
  function Sort(s: seq<Event>, column: Field, dir: Direction): (r: seq<Event>)
    ensures multiset(r) == multiset(s)
    ensures |r| == |s|
    ensures Ordered(r, column, dir)
    decreases |s|
  {
    if |s| == 0 then []
    else
      var init := s[..|s| - 1];
      assert s == init + [s[|s| - 1]];
      var r := Insert(Sort(init, column, dir), s[|s| - 1], column, dir);
      assert |r| == |multiset(r)|;
      r
  }

  function Reverse<T>(s: seq<T>): (r: seq<T>)
    ensures |r| == |s|
    ensures forall i :: 0 <= i < |s| ==> r[i] == s[|s| - 1 - i]
  {
    seq(|s|, i requires 0 <= i < |s| => s[|s| - 1 - i])
  }

  /** Reversing reorders without adding or losing elements. */
  lemma {:induction false} ReverseIsPermutation<T>(s: seq<T>)
    ensures multiset(Reverse(s)) == multiset(s)
    decreases |s|
  {
    if |s| > 0 {
      ReverseIsPermutation(s[1..]);
      assert Reverse(s) == Reverse(s[1..]) + [s[0]];
      assert s == [s[0]] + s[1..];
    }
  }

  /** Reading an ascending list backwards gives a descending one. */
  lemma ReverseOfAscendingIsDescending(s: seq<Event>, column: Field)
    requires Ordered(s, column, Asc)
    ensures Ordered(Reverse(s), column, Desc)
  {
    var r := Reverse(s);
    forall i, j | 0 <= i < j < |r|
      ensures !Before(r[j], r[i], column, Desc)
    {
      assert r[j] == s[|s| - 1 - j] && r[i] == s[|s| - 1 - i];
    }
  }

  /** No two different elements of `s` share a value in `column`. */
  predicate DistinctKeys(s: seq<Event>, column: Field) {
    forall x, y :: x in s && y in s && ColumnKey(x, column) == ColumnKey(y, column) ==> x == y
  }

  /** Rearranging a sequence keeps its keys distinct. */
  lemma DistinctKeysOfPermutation(a: seq<Event>, b: seq<Event>, column: Field)
    requires multiset(a) == multiset(b) && DistinctKeys(b, column)
    ensures DistinctKeys(a, column)
  {
    forall x, y | x in a && y in a
      ensures x in multiset(b) && y in multiset(b)
    {
    }
  }

  /** Two ordered arrangements of the same elements start with elements
      that share their key, hence with the same element when keys are
      distinct. */
  lemma FirstElementsAgree(a: seq<Event>, b: seq<Event>, column: Field, dir: Direction)
    requires |a| > 0 && multiset(a) == multiset(b)
    requires Ordered(a, column, dir) && Ordered(b, column, dir)
    requires DistinctKeys(a, column)
    ensures |b| > 0 && a[0] == b[0]
  {
    assert a[0] in multiset(b);
    assert |b| > 0;
    assert b[0] in multiset(a);
    KeyLessIsStrictTotalOrder();
    var i :| 0 <= i < |a| && a[i] == b[0];
    assert !Before(b[0], a[0], column, dir);
    var j :| 0 <= j < |b| && b[j] == a[0];
    assert !Before(a[0], b[0], column, dir);
    assert ColumnKey(a[0], column) == ColumnKey(b[0], column);
  }

  lemma OrderedTail(s: seq<Event>, column: Field, dir: Direction)
    requires |s| > 0 && Ordered(s, column, dir)
    ensures Ordered(s[1..], column, dir)
  {
    assert forall i :: 0 <= i < |s| - 1 ==> s[1..][i] == s[i + 1];
  }

  lemma DistinctKeysTail(s: seq<Event>, column: Field)
    requires |s| > 0 && DistinctKeys(s, column)
    ensures DistinctKeys(s[1..], column)
  {
    assert forall x :: x in s[1..] ==> x in s;
  }

  lemma MultisetTail<T>(a: seq<T>, b: seq<T>)
    requires |a| > 0 && |b| > 0 && a[0] == b[0] && multiset(a) == multiset(b)
    ensures multiset(a[1..]) == multiset(b[1..])
  {
    assert a == [a[0]] + a[1..] && b == [b[0]] + b[1..];
    assert multiset(a[1..]) == multiset(a) - multiset{a[0]};
    assert multiset(b[1..]) == multiset(b) - multiset{b[0]};
  }

  /** When the column separates all elements, there is exactly one ordered
      arrangement of them. */
  lemma {:induction false} OrderedArrangementIsUnique(a: seq<Event>, b: seq<Event>, column: Field, dir: Direction)
    requires multiset(a) == multiset(b)
    requires Ordered(a, column, dir) && Ordered(b, column, dir)
    requires DistinctKeys(a, column)
    ensures a == b
    decreases |a|
  {
    if |a| == 0 {
      assert |b| == |multiset(b)| == 0;
    } else {
      FirstElementsAgree(a, b, column, dir);
      MultisetTail(a, b);
      OrderedTail(a, column, dir);
      OrderedTail(b, column, dir);
      DistinctKeysTail(a, column);
      OrderedArrangementIsUnique(a[1..], b[1..], column, dir);
      assert a == [a[0]] + a[1..] && b == [b[0]] + b[1..];
    }
  }
}

=== FILE: sub_dashboard.dfy ===
/** The user's submissions page: the list of submitted events and its
    name-or-category search box. */
module SubDashboard {
  import opened Text
  import opened Seqs
  import opened Events

  /** The component state. */
  datatype SubState = SubState(
    submissions: seq<Event>,
    searchText: string,
    filteredSubmissions: seq<Event>)

  const Initial := SubState([], "", [])

  /** The lower-cased name or category contains the text; the description
      is not searched. */
  predicate SearchHit(e: Event, text: string) {
    Contains(Lower(e.eventName), text) || Contains(Lower(e.eventCategory), text)
  }

  /** `handleSearchChange`: stores the typed text lower-cased and keeps the
      submissions it hits, in their order. */
  function HandleSearchChange(st: SubState, input: string): (r: SubState)
    ensures r.searchText == Lower(input)
    ensures r.submissions == st.submissions
    ensures IsSubsequence(r.filteredSubmissions, st.submissions)
    ensures forall e :: multiset(r.filteredSubmissions)[e] ==
              if SearchHit(e, Lower(input)) then multiset(st.submissions)[e] else 0
    ensures forall e :: e in r.filteredSubmissions <==> e in st.submissions && SearchHit(e, Lower(input))
  {
    var text := Lower(input);
    st.(searchText := text, filteredSubmissions := Filter(st.submissions, (e: Event) => SearchHit(e, text)))
  }

  /** Emptying the search box shows every submission again, since the empty
      text occurs in every name. */
  lemma EmptySearchShowsAll(st: SubState)
    ensures HandleSearchChange(st, "").filteredSubmissions == st.submissions
  {
    forall i | 0 <= i < |st.submissions|
      ensures SearchHit(st.submissions[i], Lower(""))
    {
      EmptyIsContained(Lower(st.submissions[i].eventName));
    }
    FilterKeepingAll(st.submissions, (e: Event) => SearchHit(e, Lower("")));
  }

  /** Changing a description never changes which submissions the search
      keeps. */
  lemma DescriptionIsNotSearched(e: Event, description: string, text: string)
    ensures SearchHit(e.(description := description), text) == SearchHit(e, text)
  {
  }

  /** The page opens empty, and the first list of submissions is shown in
      full. */
  lemma FirstListShowsEverything(submissions: seq<Event>)
    ensures Initial.filteredSubmissions == []
    ensures SubmissionsChanged(Initial, submissions).filteredSubmissions == submissions
  {
  }

  /** The effect on `submissions`: a new list is shown in full, even though
      the search box keeps its text. */
  function SubmissionsChanged(st: SubState, submissions: seq<Event>): (r: SubState)
    ensures r.submissions == submissions && r.filteredSubmissions == submissions
    ensures r.searchText == st.searchText
  {
    st.(submissions := submissions, filteredSubmissions := submissions)
  }
}

=== FILE: submit_event.dfy ===
/** The event submission form: its input state, validation, and the
    multipart payload sent to create the event. */
module SubmitEvent {
  import opened Wrappers
  import opened Text
  import opened Rules

  /** The file chosen in the form's file input. */
  datatype ImageFile = ImageFile(fileName: string, content: seq<bv8>)

  /** The form's state. Date and time are the raw strings of their inputs;
      the price is the number its input holds, `None` when it is empty or
      not a number. */
  datatype Form = Form(
    approvalStatus: string,
    eventName: string,
    description: string,
    eventCategory: string,
    eventDate: string,
    eventTime: string,
    eventLocation: string,
    eventCityzip: string,
    eventPrice: Option<int>,
    image: Option<ImageFile>)

  /** `useState({ approval_status: '', …, image: null })` */
  const EmptyForm := Form("", "", "", "", "", "", "", "", None, None)

  /** The keys of the form state and of its error map. */
  datatype FormField =
    | ApprovalStatus | EventName | Description | EventCategory | EventDate
    | EventTime | EventLocation | EventCityzip | EventPrice | Image

  datatype FormValue = TextInput(text: string) | Amount(amount: Option<int>) | File(file: Option<ImageFile>)

  /** `state[field]` */
  function FieldValue(form: Form, f: FormField): FormValue {
    match f
    case ApprovalStatus => TextInput(form.approvalStatus)
    case EventName => TextInput(form.eventName)
    case Description => TextInput(form.description)
    case EventCategory => TextInput(form.eventCategory)
    case EventDate => TextInput(form.eventDate)
    case EventTime => TextInput(form.eventTime)
    case EventLocation => TextInput(form.eventLocation)
    case EventCityzip => TextInput(form.eventCityzip)
    case EventPrice => Amount(form.eventPrice)
    case Image => File(form.image)
  }

  /** A change of one field of the form's state. The form renders no
      input for the approval status (only its label), so a status change
      does not come from the user; the lemmas that change it state that
      whatever the state holds there, validation and submission do not
      depend on it. */
  datatype InputChange =
    | SetApprovalStatus(status: string)
    | SetEventName(name: string)
    | SetDescription(description: string)
    | SetEventCategory(category: string)
    | SetEventDate(date: string)
    | SetEventTime(time: string)
    | SetEventLocation(location: string)
    | SetEventCityzip(zip: string)
    | SetEventPrice(price: Option<int>)
  {
    function Target(): (f: FormField)
      ensures f != Image
    {
      match this
      case SetApprovalStatus(_) => ApprovalStatus
      case SetEventName(_) => EventName
      case SetDescription(_) => Description
      case SetEventCategory(_) => EventCategory
      case SetEventDate(_) => EventDate
      case SetEventTime(_) => EventTime
      case SetEventLocation(_) => EventLocation
      case SetEventCityzip(_) => EventCityzip
      case SetEventPrice(_) => EventPrice
    }

    function NewValue(): FormValue {
      match this
      case SetApprovalStatus(s) => TextInput(s)
      case SetEventName(s) => TextInput(s)
      case SetDescription(s) => TextInput(s)
      case SetEventCategory(s) => TextInput(s)
      case SetEventDate(s) => TextInput(s)
      case SetEventTime(s) => TextInput(s)
      case SetEventLocation(s) => TextInput(s)
      case SetEventCityzip(s) => TextInput(s)
      case SetEventPrice(p) => Amount(p)
    }
  }

  /** `handleInputChange`: the named field takes the new value, every other
      field, the image included, keeps its old one. */
  function HandleInputChange(form: Form, change: InputChange): (r: Form)
    ensures FieldValue(r, change.Target()) == change.NewValue()
    ensures forall f :: f != change.Target() ==> FieldValue(r, f) == FieldValue(form, f)
  {
    match change
    case SetApprovalStatus(s) => form.(approvalStatus := s)
    case SetEventName(s) => form.(eventName := s)
    case SetDescription(s) => form.(description := s)
    case SetEventCategory(s) => form.(eventCategory := s)
    case SetEventDate(s) => form.(eventDate := s)
    case SetEventTime(s) => form.(eventTime := s)
    case SetEventLocation(s) => form.(eventLocation := s)
    case SetEventCityzip(s) => form.(eventCityzip := s)
    case SetEventPrice(p) => form.(eventPrice := p)
  }

  /** `handleImageChange`: the image becomes the first chosen file, or
      nothing when the selection is empty; no other field changes. */
  function HandleImageChange(form: Form, files: seq<ImageFile>): (r: Form)
    ensures |files| > 0 ==> r.image == Some(files[0])
    ensures |files| == 0 ==> r.image == None
    ensures forall f :: f != Image ==> FieldValue(r, f) == FieldValue(form, f)
  {
    form.(image := if |files| > 0 then Some(files[0]) else None)
  }

  const NameRequired := "Event name is required."
  const DescriptionRequired := "Description is required."
  const CategoryRequired := "Event category is required."
  const DateRequired := "Event date is required."
  const TimeRequired := "Event time is required."
  const VenueRequired := "Event venue is required."
  const ImageRequired := "Event image is required."

  /** Every rule of the form holds. The approval status is not among
      them. */
  predicate FormIsValid(form: Form, metroZips: seq<string>) {
    && !IsBlank(form.eventName) && !IsBlank(form.description)
    && !IsBlank(form.eventCategory) && !IsBlank(form.eventDate)
    && !IsBlank(form.eventTime) && !IsBlank(form.eventLocation)
    && ZipError(form.eventCityzip, metroZips) == None
    && IsPositivePrice(form.eventPrice) && form.image.Some?
  }

  /** The fields `validateForm` checks. */
  const CheckedFields: set<FormField> := {
    EventName, Description, EventCategory, EventDate, EventTime,
    EventLocation, EventCityzip, EventPrice, Image }

  /** The message, if any, one field earns. */
  function FieldError(form: Form, f: FormField, metroZips: seq<string>): Option<string> {
    match f
    case ApprovalStatus => None
    case EventName => if IsBlank(form.eventName) then Some(NameRequired) else None
    case Description => if IsBlank(form.description) then Some(DescriptionRequired) else None
    case EventCategory => if IsBlank(form.eventCategory) then Some(CategoryRequired) else None
    case EventDate => if IsBlank(form.eventDate) then Some(DateRequired) else None
    case EventTime => if IsBlank(form.eventTime) then Some(TimeRequired) else None
    case EventLocation => if IsBlank(form.eventLocation) then Some(VenueRequired) else None
    case EventCityzip => ZipError(form.eventCityzip, metroZips)
    case EventPrice => if !IsPositivePrice(form.eventPrice) then Some(PriceNotPositive) else None
    case Image => if form.image.None? then Some(ImageRequired) else None
  }

  /** `validateForm`'s error map. */
  function ValidateForm(form: Form, metroZips: seq<string>): (errors: map<FormField, string>)
    ensures EventName in errors <==> IsBlank(form.eventName)
    ensures Description in errors <==> IsBlank(form.description)
    ensures EventCategory in errors <==> IsBlank(form.eventCategory)
    ensures EventDate in errors <==> IsBlank(form.eventDate)
    ensures EventTime in errors <==> IsBlank(form.eventTime)
    ensures EventLocation in errors <==> IsBlank(form.eventLocation)
    ensures EventCityzip in errors <==> IsBlank(form.eventCityzip) || form.eventCityzip !in metroZips
    ensures EventCityzip in errors ==>
              errors[EventCityzip] == if IsBlank(form.eventCityzip) then ZipRequired else ZipOutsideMetro
    ensures EventPrice in errors <==> !IsPositivePrice(form.eventPrice)
    ensures Image in errors <==> form.image.None?
    ensures ApprovalStatus !in errors
    ensures EventName in errors ==> errors[EventName] == NameRequired
    ensures Description in errors ==> errors[Description] == DescriptionRequired
    ensures EventCategory in errors ==> errors[EventCategory] == CategoryRequired
    ensures EventDate in errors ==> errors[EventDate] == DateRequired
    ensures EventTime in errors ==> errors[EventTime] == TimeRequired
    ensures EventLocation in errors ==> errors[EventLocation] == VenueRequired
    ensures EventPrice in errors ==> errors[EventPrice] == PriceNotPositive
    ensures Image in errors ==> errors[Image] == ImageRequired
  {
    ErrorMap(form, metroZips)
  }

  function ErrorMap(form: Form, metroZips: seq<string>): map<FormField, string> {
    map f | f in CheckedFields && FieldError(form, f, metroZips).Some? :: FieldError(form, f, metroZips).value
  }

  /** `validateForm` returns true, that is, leaves no message, exactly when
      every rule holds. */
  lemma FormValidIffNoErrors(form: Form, metroZips: seq<string>)
    ensures ValidateForm(form, metroZips) == map[] <==> FormIsValid(form, metroZips)
  {
    var errors := ValidateForm(form, metroZips);
    if FormIsValid(form, metroZips) {
      forall f | f in errors
        ensures false
      {
        match f
        case ApprovalStatus =>
        case _ =>
      }
    } else {
      assert exists f :: f in errors;
    }
  }

  /** Whatever the approval status holds, validation reports the same. */
  lemma ValidationIgnoresApprovalStatus(form: Form, status: string, metroZips: seq<string>)
    ensures ValidateForm(form.(approvalStatus := status), metroZips) == ValidateForm(form, metroZips)
  {
    var other := form.(approvalStatus := status);
    forall f
      ensures FieldError(other, f, metroZips) == FieldError(form, f, metroZips)
    {
      match f
      case ApprovalStatus =>
      case _ =>
    }
    assert ErrorMap(other, metroZips) == ErrorMap(form, metroZips);
  }

  /** The multipart fields of the create request. */
  datatype Payload = Payload(
    approvalStatus: string,
    eventName: string,
    description: string,
    eventCategory: string,
    eventDate: string,
    eventTime: string,
    eventLocation: string,
    eventCityzip: string,
    eventPrice: Option<int>,
    eventImage: ImageFile)

  /** What `handleSubmit` does with the form. */
  datatype SubmitOutcome =
    | NotSubmitted(errors: map<FormField, string>)   // errors shown, nothing sent
    | Create(payload: Payload)                      // POST /api/admin/events

  /** `handleSubmit`: no request unless the form validates; the request
      carries the status "Pending" and every other field as typed. */
  function HandleSubmit(form: Form, metroZips: seq<string>): (r: SubmitOutcome)
    ensures r.Create? <==> FormIsValid(form, metroZips)
    ensures r.NotSubmitted? ==> r.errors != map[] && r.errors == ValidateForm(form, metroZips)
    ensures r.Create? ==>
              && r.payload.approvalStatus == "Pending"
              && r.payload.eventName == form.eventName
              && r.payload.description == form.description
              && r.payload.eventCategory == form.eventCategory
              && r.payload.eventDate == form.eventDate
              && r.payload.eventTime == form.eventTime
              && r.payload.eventLocation == form.eventLocation
              && r.payload.eventCityzip == form.eventCityzip
              && r.payload.eventPrice == form.eventPrice
              && Some(r.payload.eventImage) == form.image
  {
    var errors := ValidateForm(form, metroZips);
    FormValidIffNoErrors(form, metroZips);
    if errors != map[] then NotSubmitted(errors)
    else
      Create(Payload("Pending", form.eventName, form.description, form.eventCategory,
                     form.eventDate, form.eventTime, form.eventLocation, form.eventCityzip,
                     form.eventPrice, form.image.value))
  }

  /** The status typed into the form never reaches the request: submitting
      with any other status sends exactly the same thing. */
  lemma SubmitIgnoresApprovalStatus(form: Form, status: string, metroZips: seq<string>)
    ensures HandleSubmit(form.(approvalStatus := status), metroZips) == HandleSubmit(form, metroZips)
  {
    ValidationIgnoresApprovalStatus(form, status, metroZips);
  }

  /** The freshly opened form cannot be submitted. */
  lemma EmptyFormIsRejected(metroZips: seq<string>)
    ensures HandleSubmit(EmptyForm, metroZips).NotSubmitted?
    ensures Image in HandleSubmit(EmptyForm, metroZips).errors
  {
  }
}

=== FILE: text.dfy ===
/** String helpers shared by every component: JavaScript's `trim`-based
    blank test, ASCII lower-casing, and `includes` as a substring test. */
module Text {

  /** The characters JavaScript's `String.prototype.trim` strips: the
      WhiteSpace and LineTerminator code points of ECMAScript. */
  predicate IsSpace(c: char) {
    || c == ' ' || c == '\t' || c == '\n' || c == '\r'
    || c == '\U{000B}' || c == '\U{000C}' || c == '\U{00A0}' || c == '\U{1680}'
    || ('\U{2000}' <= c <= '\U{200A}')
    || c == '\U{2028}' || c == '\U{2029}' || c == '\U{202F}' || c == '\U{205F}'
    || c == '\U{3000}' || c == '\U{FEFF}'
  }

  /** Drops leading white space: the result is the suffix of `s` that
      starts at its first non-space character. */
  function TrimStart(s: string): (r: string)
    ensures |r| <= |s| && r == s[|s| - |r|..]
    ensures forall i :: 0 <= i < |s| - |r| ==> IsSpace(s[i])
    ensures |r| > 0 ==> !IsSpace(r[0])
    decreases |s|
  {
    if |s| > 0 && IsSpace(s[0]) then TrimStart(s[1..]) else s
  }

  /** Drops trailing white space: the result is the prefix of `s` that
      ends at its last non-space character. */
  function TrimEnd(s: string): (r: string)
    ensures |r| <= |s| && r == s[..|r|]
    ensures forall i :: |r| <= i < |s| ==> IsSpace(s[i])
    ensures |r| > 0 ==> !IsSpace(r[|r| - 1])
    decreases |s|
  {
    if |s| > 0 && IsSpace(s[|s| - 1]) then TrimEnd(s[..|s| - 1]) else s
  }

  /** `s.trim()`: `s` with the white space at both ends dropped, so that
      it neither starts nor ends with white space. */
  function Trim(s: string): (r: string)
    ensures |r| <= |s|
    ensures r == [] || (!IsSpace(r[0]) && !IsSpace(r[|r| - 1]))
    ensures |s| > 0 && !IsSpace(s[0]) && !IsSpace(s[|s| - 1]) ==> r == s
  {
    TrimEnd(TrimStart(s))
  }

  /** The forms' "required" test: a value is blank when trimming leaves
      nothing (`!s.trim()` / `s.trim() === ''`). */
  predicate IsBlank(s: string) {
    Trim(s) == []
  }

  /** The empty string is blank. */
  lemma EmptyIsBlank()
    ensures IsBlank([])
  {
  }

  /** Blank exactly when every character is white space; in particular
      the empty string is blank. */
  lemma BlankIffAllSpace(s: string)
    ensures IsBlank(s) <==> forall i :: 0 <= i < |s| ==> IsSpace(s[i])
  {
    if !forall i :: 0 <= i < |s| ==> IsSpace(s[i]) {
      var k :| 0 <= k < |s| && !IsSpace(s[k]);
      NonSpaceSurvivesTrim(s, k);
    }
  }

  /** A string holding a non-space character is not blank. */
  lemma NonSpaceSurvivesTrim(s: string, k: nat)
    requires k < |s| && !IsSpace(s[k])
    ensures Trim(s) != []
  {
    var t := TrimStart(s);
    var j := k - (|s| - |t|);
    assert 0 <= j < |t| && t[j] == s[k];
    assert j < |TrimEnd(t)|;
  }

  /** `toLowerCase` on one character, restricted to ASCII letters. */
  function LowerChar(c: char): (d: char)
    ensures 'A' <= c <= 'Z' ==> d as int == c as int + 32
    ensures !('A' <= c <= 'Z') ==> d == c
  {
    if 'A' <= c <= 'Z' then (c as int + 32) as char else c
  }

  /** `s.toLowerCase()`, ASCII letters only. */
  function Lower(s: string): (r: string)
    ensures |r| == |s|
    ensures forall i :: 0 <= i < |s| ==> r[i] == LowerChar(s[i])
  {
    seq(|s|, i requires 0 <= i < |s| => LowerChar(s[i]))
  }

  predicate IsLowerCase(s: string) {
    forall i :: 0 <= i < |s| ==> !('A' <= s[i] <= 'Z')
  }

  /** Lower-casing leaves no upper-case ASCII letter and changes nothing
      on a second application. */
  lemma LowerIsIdempotent(s: string)
    ensures IsLowerCase(Lower(s))
    ensures Lower(Lower(s)) == Lower(s)
  {
  }

  /** `hay.includes(needle)`: `needle` occurs as a contiguous block of
      `hay`. */
  function Contains(hay: string, needle: string): (b: bool)
    ensures b ==> |needle| <= |hay|
    ensures needle == [] ==> b
    decreases |hay|
  {
    needle <= hay || (|hay| > 0 && Contains(hay[1..], needle))
  }

  /** `includes` finds `needle` exactly when it starts at some position. */
  lemma {:induction false} ContainsIffOccurs(hay: string, needle: string)
    ensures Contains(hay, needle) <==>
            exists k :: 0 <= k <= |hay| && needle <= hay[k..]
    decreases |hay|
  {
    if needle <= hay {
      assert hay[0..] == hay;
    } else if Contains(hay, needle) {
      ContainsIffOccurs(hay[1..], needle);
      var k :| 0 <= k <= |hay[1..]| && needle <= hay[1..][k..];
      assert hay[1..][k..] == hay[k + 1..];
    }
    if k :| 0 <= k <= |hay| && needle <= hay[k..] {
      if k == 0 {
        assert hay[0..] == hay;
      } else {
        ContainsIffOccurs(hay[1..], needle);
        assert hay[1..][k - 1..] == hay[k..];
      }
    }
  }

  /** The empty string occurs in every string. */
  lemma EmptyIsContained(hay: string)
    ensures Contains(hay, [])
  {
  }
}

=== FILE: wrappers.dfy ===
/** The optional value used for fields that may be missing: a date, a
    time or a price that is absent, empty or does not parse. */
module Wrappers {
  datatype Option<+T> = None | Some(value: T)
}
